=== FILE: README.md ===
# SmartStroller connectivity and sensor-report core, in Dafny

This project models two parts of the SmartStroller device application:

- **Connectivity** (`src/connectivity.c`). The device publishes one IoTivity resource through the iotcon library.
  - It answers requests on the resource: host address, query, CRUD dispatch and the observe directive.
  - It keeps the resource's set of observer ids.
  - It pushes "opened" notifications to those observers.
  - It creates the resource and tears it down.
- **Web utility** (`src/webutil.c`). This builds the JSON sensor snapshot that the device uploads.
  - A single builder handle goes through the phases init, begin, add records, end, read, fini. Its `is_begin`/`is_end` flags guard each phase.
  - Each record names the device (`SensorPiID`).
  - It then holds one member per sensor whose bit is set in `enabled_sensor`, in a fixed order of fifteen sensors.
  - Next comes a `SensorEnabled` array listing the same sensors in the same order, and a `Hash` member when a hash is given.

Every call into iotcon, JSON-GLib or the configuration file whose result the code checks is a parameter of the model:
- a `bool` saying whether the call succeeded;
- for a getter, an `Option` whose `None` is the failure.

So every error return of the modelled functions is a reachable branch of the model. The functions listed under "## Left out" are not modelled, and neither are calls whose result the code ignores: the iotcon `*_destroy` calls, `iotcon_query_foreach`, and the `json_builder_*` calls, which the phase flags keep consistent.

Return codes are the C ones:
- `CTypes.Ok` is 0;
- `CTypes.Fail` is -1.

Global and out-pointer state is passed and returned explicitly:
- the `Json_h` handle;
- the `connectivity_resource_s` record;
- the observer set.

Files:

- `wrappers.dfy`, `ctypes.dfy`: `Option`, the `int32` range, an opaque C `double`, the return codes.
- `iotcon.dfy`: the iotcon values the core touches. These are resources, representations, requests with their getters, and responses.
- `connectivity.dfy`: the request handler pipeline, the observer directive, notification, resource set-up and tear-down.
- `connectivity_properties.dfy`: several properties.
  - Observer register/deregister laws.
  - A request-sequence driver `Serve` and where every observer id comes from.
  - Notification ignores the key, and set-up followed by tear-down releases everything.
  - A worked door scenario.
- `json.dfy`: JSON documents as trees.
- `sensors.dfy`: the fifteen sensors, their flags (`Sensors.Flag`) and member names.
  - The record as written: fifteen flag tests in source order.
  - A reference definition that filters the fixed order.
  - The proof that the two agree, and the record's layout.
- `webutil.dfy`: the `Json_h` phase machine.
- `webutil_properties.dfy`: call sequences over the builder.
  - The phase invariant.
  - A complete session yields exactly the added records.
  - Nothing gets through after `fini` or after `end`.

## Model

| member | source | states |
|---|---|---|
| Connectivity.SendResponse | src/connectivity.c:38-62 | Returns 0 exactly when creating, filling and sending the response all succeed. A response is sent only then, and it carries the given result and representation. |
| Connectivity.CreateRepresentation | src/connectivity.c:70-104 | Yields a representation exactly when the resource is present and every iotcon step succeeds. The representation has the resource's URI path and exactly one attribute, named "opened", holding the value. |
| Connectivity.Notify | src/connectivity.c:178-197 | A null record or a null observer set fails without notifying. A notification is attempted exactly when the record, its observers and its resource are present and the representation can be built. It goes to exactly the record's observers and carries the "opened" attribute with the value. The code is 0 exactly when the attempt is made and succeeds. |
| Connectivity.NotifyBool | src/connectivity.c:178-197 | For a bool, notification fails on a null record. Any notification sent carries the bool as the "opened" attribute. |
| Connectivity.NotifyInt | src/connectivity.c:199-218 | As for a bool, with an int attribute. |
| Connectivity.NotifyDouble | src/connectivity.c:220-239 | As for a bool, with a double attribute. |
| Connectivity.HandleQuery | src/connectivity.c:248-259 | Returns 0 exactly when the query can be read. An absent query is not an error. |
| Connectivity.HandleRequestByCrudType | src/connectivity.c:261-290 | Returns 0 exactly when the request type can be read and is GET, PUT, POST or DELETE. |
| Connectivity.HandleObserver | src/connectivity.c:292-316 | Succeeds exactly when the observe type can be read and is one of these: none; register with a readable id, an observer set and a successful add; deregister with the same and a successful remove. A registered id ends up in the set and a deregistered one out of it, and no other id changes. A failure or no directive leaves the set unchanged. |
| Connectivity.RequestResourceHandler | src/connectivity.c:318-344 | A null request does nothing. Otherwise the stages host address, query, dispatch, observe run in order until one fails. An error response is sent exactly when one fails, and the observer set changes only when all succeed. |
| Connectivity.ConnectivitySetResource | src/connectivity.c:380-436 | Succeeds exactly when every allocation and iotcon call succeeds. The new resource then has the given path and type, the default and batch interfaces, the policies discoverable, observable and secure, and an empty observer set. The type list is released exactly when it was created, and the interface list exactly when it was created. The resource is destroyed and the record freed exactly when a later step fails. The observer set is never released. A failed set-up releases interfaces, types, resource and record in that order, each at most once; a successful one releases the type list, then the interface list. |
| Connectivity.ConnectivityUnsetResource | src/connectivity.c:372-378 | Destroys the observer set exactly when it exists and the resource exactly when it exists, then frees the record exactly when it exists, in that order. |
| ConnectivityProperties.RegisterIdempotent | src/connectivity.c:292-316 | Registering an id twice leaves the same set as registering it once. |
| ConnectivityProperties.DeregisterAbsentIsNoOp | src/connectivity.c:292-316 | Deregistering an id that is not in the set leaves the set unchanged. |
| ConnectivityProperties.RegisterThenDeregister | src/connectivity.c:292-316 | Registering and then deregistering a fresh id restores the original set. |
| ConnectivityProperties.Serve | src/connectivity.c:318-344 | Over any sequence of requests, the resource never changes and the observer set never appears or disappears. |
| ConnectivityProperties.ObserverProvenance | src/connectivity.c:292-344 | After any sequence of requests, every observer was there at the start or was registered by some request. Every original observer is still there unless some request deregistered it. |
| ConnectivityProperties.NotifyIgnoresKey | src/connectivity.c:70-104 | The key argument has no effect on the notification: the attribute is always named "opened". |
| ConnectivityProperties.SetThenUnset | src/connectivity.c:372-436 | Tearing down a freshly created resource destroys its observer set and its resource and frees the record. |
| ConnectivityProperties.FreshResourceHasNoAudience | src/connectivity.c:380-436 | A notification on a freshly created resource reaches no observer. |
| ConnectivityProperties.DoorScenario | src/connectivity.c:178-197 | After creating "/door/1" and one register request from observer 7, a bool notification goes to exactly {7} with "opened" = true. |
| Sensors.EnabledSensors | src/webutil.c:267-340 | The listed sensors are exactly those whose bit is set in the mask, strictly in record order. |
| Sensors.FlagTestsInOrder | src/webutil.c:267-340 | The fifteen flag tests as written select exactly the enabled sensors, in record order. |
| Sensors.RecordIsReference | src/webutil.c:262-398 | The members the add call builds equal the reference record built from the enabled-sensor list. |
| Sensors.RecordShape | src/webutil.c:262-398 | A record has this layout: `SensorPiID` first, then each enabled sensor's reading in order, then a `SensorEnabled` array naming the same sensors in the same order, then `Hash` when a hash is given. |
| Sensors.ShapedMembers | src/webutil.c:262-398 | In a record with that layout, a member is named after a sensor exactly when its bit is set, and `Hash` is present exactly when a hash is given. |
| Sensors.RecordMembers | src/webutil.c:262-398 | A built record has a member named after a sensor exactly when the sensor's bit is set, and a `Hash` member exactly when a hash is given. |
| WebUtil.JsonInit | src/webutil.c:117-128 | Clears both phase flags. Returns 0 with a fresh empty builder exactly when one can be made; otherwise returns -1 with no builder. |
| WebUtil.JsonFini | src/webutil.c:130-142 | Always returns 0, leaving no builder and both flags clear. |
| WebUtil.DataArrayBegin | src/webutil.c:144-163 | Returns 0 exactly when a builder exists and neither flag is set, and then sets only `is_begin`. Otherwise returns -1 and changes nothing. |
| WebUtil.DataArrayEnd | src/webutil.c:165-176 | Returns 0 exactly when a builder exists, `is_begin` is set and `is_end` is not, and then sets only `is_end`. Otherwise returns -1 and changes nothing. |
| WebUtil.AddSensorData | src/webutil.c:200-400 | Returns 0 exactly when the array is open, data is given and the id is non-empty. It then appends exactly one record, built from the id and the data, and keeps the earlier records and the flags. Otherwise it returns -1 and changes nothing. The id is the caller's whenever the caller passes one, even an empty one; the configuration's id is used only when the caller passes NULL. |
| WebUtilProperties.CallerIdWins | src/webutil.c:252-260 | When the caller passes an id, the configuration file has no effect on the add. An empty caller id makes the add fail and change nothing, whatever the configuration holds. |
| WebUtil.GetJsonString | src/webutil.c:402-431 | A document exists exactly when begin and end have both run, the builder yields a root node and a generator can be made. It is then `{"SensorDataList": [records]}`. |
| WebUtilProperties.RunPreservesWf | src/webutil.c:117-176 | Every sequence of builder calls keeps the phase invariant: `is_end` only after `is_begin`, `is_begin` only with a builder, and no record before begin. |
| WebUtilProperties.ReachableWf | src/webutil.c:117-176 | Every handle reachable from the initial one satisfies the phase invariant. |
| WebUtilProperties.AddsAppend | src/webutil.c:200-400 | In the open array, each add returns 0 exactly when it has data and a non-empty id. The accepted adds append their records in call order; the others change nothing. |
| WebUtilProperties.SessionSucceeds | src/webutil.c:117-176 | Init, begin, acceptable adds and end all return 0, from any starting handle. |
| WebUtilProperties.SessionCodes | src/webutil.c:117-260 | In init, begin, any adds, end, from any handle: init, begin and end return 0, and each add returns 0 exactly when it has data and a non-empty id. |
| WebUtilProperties.SessionDocument | src/webutil.c:402-431 | After init, begin, any adds and end, the document lists exactly the records of the accepted adds, in call order. |
| WebUtilProperties.SessionRecordsShaped | src/webutil.c:200-400 | In any session, including one with rejected adds, each record of the document is the record of some accepted add and has the record layout for that call's id and data. |
| WebUtilProperties.FiniIsFinal | src/webutil.c:130-176 | After fini from any handle, without a new init, every call but fini fails, the handle stays cleared, and there is no document. |
| WebUtilProperties.EndIsFinal | src/webutil.c:165-176 | After end, begin, add and end all fail and leave the document as it is. |

## Left out

- Sensor flag bits: `inc/webutil.h:27-36` defines only the first seven flags (motion to sound level), as bits 0 to 6. The other eight flags that `src/webutil.c` tests (tilt, light, collision, obstacle, ultrasonic distance, rain, touch, gas) are taken to be bits 7 to 14 in that order. The same header's sensor-data struct lacks the fields for those eight sensors, which the model includes.
- CRUD dispatch, notification and the record layout follow the code as written:
  - CRUD dispatch only checks the request type; GET, PUT, POST and DELETE handlers do nothing.
  - Notification is a single iotcon call to the whole observer set. There is no per-observer count and no separate "no observers" result.
  - The key argument of the notify calls is never used; the attribute is always named "opened".
  - The record layout described beside `web_util_json_add_sensor_data` calls motion, flame and vibration booleans. The code adds them as integers, and so does the model.
- `inc/connectivity.h` declares `connectivity_notify`, `connectivity_create_resource` and `connectivity_destroy_resource`, which `src/connectivity.c` does not define. The model follows the definitions in the .c file.
- Reading the resource's URI path from a null resource handle is modelled as a failing getter, so no representation is built.
- Connectivity.HandleObserver: a NULL observer set makes `iotcon_observers_add` and `iotcon_observers_remove` fail, leaving the set NULL. `_request_resource_handler` passes the record's set unchecked (`src/connectivity.c:337`), and the source does not show iotcon's check of that argument. The clause that the set is present after the call exactly when it was present before, and `ConnectivityProperties.Serve`'s "never appears", rest on this.
- `connectivity_init` and `connectivity_fini`: iotcon start-up and shutdown, with no logic of the core. Left out.
- `web_util_noti_init`, `web_util_noti_fini` and `web_util_noti_post`: HTTP upload through libcurl is I/O. Left out.
- `_get_default_path_in_conf` reads a file. It is the `confPath` parameter.
  - `confPath` is `None` when the file cannot be opened or is empty.
  - Otherwise it is the bytes up to the first NUL among the first at most 64 bytes of the file (`URI_PATH_LEN`, `src/webutil.c:30`), with a final newline removed. Both `strlen` and `json_builder_add_string_value` (`src/webutil.c:260` and `265`) stop at a NUL, so a file starting with a NUL gives the empty id, which the add rejects.
- `confPath` does not represent a read of exactly 64 bytes that does not end in a newline. That read leaves the buffer unterminated, so the `strlen` at `src/webutil.c:260` reads past it; this is undefined behaviour.
- The configuration file is not closed when the read returns nothing (`src/webutil.c:187-190`); this leak is not modelled.
- JSON text rendering: documents are trees, and `web_util_get_json_string`'s text is the tree it renders. JSON-GLib's builder calls are folded into the tree they build.
- C doubles are opaque 64-bit values. No floating-point arithmetic happens in the core.
- Memory ownership is not modelled: who frees representations, builders, generators and the returned string, and leaks on error paths.
- In `connectivity_set_resource`, the out-pointer is written right after the record is allocated. After any later failure it is left pointing at the freed record. The model returns no record on failure.
- Log output (`_D`, `_I`, `_E`) and the `_query_cb` debugging callback are left out.
- The sensor drivers, the model layer, the controller and `main.c` are callers of this core and are not part of this model.

=== FILE: connectivity.dfy ===
/** The connectivity layer of the door sensor service: one observable
    iotcon resource, the request callback that answers remote clients and
    maintains the observer set, and the notify entry points the sensor
    loops call. */
module Connectivity {
  import opened Wrappers
  import opened CTypes
  import opened Iotcon

  /** connectivity_resource_s: the middleware resource handle and the
      observer set handle; either pointer may be NULL. */
  datatype ResourceInfo = ResourceInfo(res: Option<Res>, observers: Option<set<ObserverId>>)

  /** The key under which every notification stores its value. */
  const NotifyKey: string := "opened"

  // ---------------------------------------------------------------------
  // Responses
  // ---------------------------------------------------------------------

  /** Outcomes of the four middleware calls `_send_response` makes:
      create, set result, set representation, send. */
  datatype ResponseSteps = ResponseSteps(create: bool, setResult: bool, setRepresentation: bool, send: bool)

  /** `code` is the helper's return value; `sent` the response the
      middleware accepted for sending, if any. */
  datatype SendOutcome = SendOutcome(code: int, sent: Option<Response>)

  /** `_send_response`: builds a response with the given result and
      representation and hands it to the middleware. */
  function SendResponse(representation: Option<Representation>, result: ResponseResult, steps: ResponseSteps): (r: SendOutcome)
    ensures r.code == Ok || r.code == Fail
    ensures r.code == Ok <==> steps.create && steps.setResult && steps.setRepresentation && steps.send
    ensures r.sent.Some? <==> r.code == Ok
    ensures r.sent.Some? ==> r.sent.value.result == result && r.sent.value.representation == representation
  {
    if !steps.create then SendOutcome(Fail, None)
    else if !steps.setResult || !steps.setRepresentation || !steps.send then SendOutcome(Fail, None)
    else SendOutcome(Ok, Some(Response(result, representation)))
  }

  // ---------------------------------------------------------------------
  // Representations and notification
  // ---------------------------------------------------------------------

  /** Outcomes of the middleware calls of `_create_representation_with_*`,
      in the order the code makes them. */
  datatype RepresentationSteps = RepresentationSteps(
    getUriPath: bool,
    createRepresentation: bool,
    createAttributes: bool,
    setUriPath: bool,
    addAttribute: bool,
    setAttributes: bool)

  predicate AllRepresentationSteps(s: RepresentationSteps) {
    s.getUriPath && s.createRepresentation && s.createAttributes
    && s.setUriPath && s.addAttribute && s.setAttributes
  }

  /** `_create_representation_with_bool/int/double`: a representation of the
      resource's URI path with one attribute holding `value`. The `key`
      argument is accepted but never read: the attribute is always stored
      under "opened". Reading the URI path of a NULL resource handle fails. */
  function CreateRepresentation(res: Option<Res>, key: string, value: Value, steps: RepresentationSteps): (r: Option<Representation>)
    ensures r.Some? <==> res.Some? && AllRepresentationSteps(steps)
    ensures r.Some? ==> r.value.uriPath == res.value.uriPath
    ensures r.Some? ==> |r.value.attributes| == 1
    ensures r.Some? ==> r.value.attributes[0].key == NotifyKey && r.value.attributes[0].value == value
  {
    if res.None? || !steps.getUriPath then None
    else if !steps.createRepresentation then None
    else if !steps.createAttributes || !steps.setUriPath || !steps.addAttribute || !steps.setAttributes then None
    else Some(Representation(res.value.uriPath, [Attribute("opened", value)]))
  }

  /** One call of iotcon_resource_notify: the representation and the
      observer set it was asked to deliver to. */
  datatype Notification = Notification(representation: Representation, audience: set<ObserverId>)

  /** `code` is the notify function's return value; `attempted` the
      delivery handed to the middleware, if the code got that far. */
  datatype NotifyOutcome = NotifyOutcome(code: int, attempted: Option<Notification>)

  /** The common body of `connectivity_notify_bool/int/double`. */
  function Notify(info: Option<ResourceInfo>, key: string, value: Value, steps: RepresentationSteps, notifyOk: bool): (r: NotifyOutcome)
    ensures r.code == Ok || r.code == Fail
    ensures info.None? || info.value.observers.None? ==> r.code == Fail && r.attempted.None?
    ensures r.attempted.Some? <==>
      info.Some? && info.value.observers.Some? && info.value.res.Some? && AllRepresentationSteps(steps)
    ensures r.code == Ok <==> r.attempted.Some? && notifyOk
    ensures r.attempted.Some? ==> r.attempted.value.audience == info.value.observers.value
    ensures r.attempted.Some? ==>
      r.attempted.value.representation == Representation(info.value.res.value.uriPath, [Attribute(NotifyKey, value)])
  {
    if info.None? then NotifyOutcome(Fail, None)
    else if info.value.observers.None? then NotifyOutcome(Fail, None)
    else
      var representation := CreateRepresentation(info.value.res, key, value, steps);
      if representation.None? then NotifyOutcome(Fail, None)
      else
        var delivery := Notification(representation.value, info.value.observers.value);
        if !notifyOk then NotifyOutcome(Fail, Some(delivery))
        else NotifyOutcome(Ok, Some(delivery))
  }

  /** `connectivity_notify_bool`. */
  function NotifyBool(info: Option<ResourceInfo>, key: string, value: bool, steps: RepresentationSteps, notifyOk: bool): (r: NotifyOutcome)
    ensures info.None? || info.value.observers.None? ==> r.code == Fail && r.attempted.None?
    ensures r.attempted.Some? ==> r.attempted.value.representation.attributes == [Attribute(NotifyKey, BoolValue(value))]
  {
    Notify(info, key, BoolValue(value), steps, notifyOk)
  }

  /** `connectivity_notify_int`. */
  function NotifyInt(info: Option<ResourceInfo>, key: string, value: int32, steps: RepresentationSteps, notifyOk: bool): (r: NotifyOutcome)
    ensures info.None? || info.value.observers.None? ==> r.code == Fail && r.attempted.None?
    ensures r.attempted.Some? ==> r.attempted.value.representation.attributes == [Attribute(NotifyKey, IntValue(value))]
  {
    Notify(info, key, IntValue(value), steps, notifyOk)
  }

  /** `connectivity_notify_double`. */
  function NotifyDouble(info: Option<ResourceInfo>, key: string, value: Double, steps: RepresentationSteps, notifyOk: bool): (r: NotifyOutcome)
    ensures info.None? || info.value.observers.None? ==> r.code == Fail && r.attempted.None?
    ensures r.attempted.Some? ==> r.attempted.value.representation.attributes == [Attribute(NotifyKey, DoubleValue(value))]
  {
    Notify(info, key, DoubleValue(value), steps, notifyOk)
  }

  // ---------------------------------------------------------------------
  // Request handling
  // ---------------------------------------------------------------------

  /** `_handle_query`: fails only when the query cannot be read; the pairs
      of a present query are only logged. */
  function HandleQuery(req: Request): (code: int)
    ensures code == Ok || code == Fail
    ensures code == Ok <==> req.query.Some?
  {
    match req.query
    case None => Fail
    case Some(_) => Ok
  }

  predicate IsCrud(t: RequestType) {
    t.Get? || t.Put? || t.Post? || t.Delete?
  }

  /** `_handle_request_by_crud_type`: the four CRUD types are accepted and
      only logged; anything else, or an unreadable type, fails. It takes no
      resource state, so it cannot change any. */
  function HandleRequestByCrudType(req: Request): (code: int)
    ensures code == Ok || code == Fail
    ensures code == Ok <==> req.requestType.Some? && IsCrud(req.requestType.value)
  {
    match req.requestType
    case None => Fail
    case Some(t) =>
      match t
      case Get => Ok
      case Put => Ok
      case Post => Ok
      case Delete => Ok
      case OtherType => Fail
  }

  /** Outcomes of iotcon_observers_add and iotcon_observers_remove on a
      non-NULL observer set. On a NULL set both fail. */
  datatype ObserverSteps = ObserverSteps(addOk: bool, removeOk: bool)

  datatype ObserveOutcome = ObserveOutcome(code: int, observers: Option<set<ObserverId>>)

  /** `_handle_observer`: registration adds the request's observe id to
      the set, deregistration removes it, any other observe type is a
      successful no-op. */
  function HandleObserver(req: Request, observers: Option<set<ObserverId>>, steps: ObserverSteps): (r: ObserveOutcome)
    ensures r.code == Ok || r.code == Fail
    ensures r.code == Fail ==> r.observers == observers
    ensures r.observers.Some? <==> observers.Some?
    ensures r.code == Ok <==>
      match req.observeType
      case None => false
      case Some(NoObserveType) => true
      case Some(Register) => req.observeId.Some? && observers.Some? && steps.addOk
      case Some(Deregister) => req.observeId.Some? && observers.Some? && steps.removeOk
    ensures req.observeType == Some(NoObserveType) ==> r.observers == observers
    ensures r.code == Ok && req.observeType == Some(Register) ==>
      && r.observers.Some?
      && req.observeId.value in r.observers.value
      && r.observers.value - {req.observeId.value} == observers.value - {req.observeId.value}
    ensures r.code == Ok && req.observeType == Some(Deregister) ==>
      && r.observers.Some?
      && req.observeId.value !in r.observers.value
      && r.observers.value + {req.observeId.value} == observers.value + {req.observeId.value}
  {
    match req.observeType
    case None => ObserveOutcome(Fail, observers)
    case Some(t) =>
      match t
      case Register =>
        if req.observeId.None? then ObserveOutcome(Fail, observers)
        else if observers.None? || !steps.addOk then ObserveOutcome(Fail, observers)
        else ObserveOutcome(Ok, Some(observers.value + {req.observeId.value}))
      case Deregister =>
        if req.observeId.None? then ObserveOutcome(Fail, observers)
        else if observers.None? || !steps.removeOk then ObserveOutcome(Fail, observers)
        else ObserveOutcome(Ok, Some(observers.value - {req.observeId.value}))
      case NoObserveType => ObserveOutcome(Ok, observers)
  }

  /** The steps of `_request_resource_handler`, in the order they run. */
  datatype Stage = HostAddressStage | QueryStage | DispatchStage | ObserveStage

  const PipelineOrder: seq<Stage> := [HostAddressStage, QueryStage, DispatchStage, ObserveStage]

  /** Outcomes of the middleware calls the request callback can make
      beyond the request getters. */
  datatype Middleware = Middleware(observerSteps: ObserverSteps, responseSteps: ResponseSteps)

  /** Whether one step of the pipeline succeeds on its own. */
  predicate StageSucceeds(req: Request, info: ResourceInfo, mw: Middleware, stage: Stage) {
    match stage
    case HostAddressStage => req.hostAddress.Some?
    case QueryStage => HandleQuery(req) == Ok
    case DispatchStage => HandleRequestByCrudType(req) == Ok
    case ObserveStage => HandleObserver(req, info.observers, mw.observerSteps).code == Ok
  }

  /** `info` is the resource record after the request; `ran` the steps
      that were executed; `response` the response the callback asked to
      send; `responseSent` whether the middleware sent it. */
  datatype HandlerOutcome = HandlerOutcome(info: ResourceInfo, ran: seq<Stage>, response: Option<Response>, responseSent: bool)

  /** The error path of the callback: one error response without a
      representation, whose send result is ignored. */
  function ErrorExit(info: ResourceInfo, ran: seq<Stage>, mw: Middleware): HandlerOutcome {
    var sent := SendResponse(None, ResultError, mw.responseSteps);
    HandlerOutcome(info, ran, Some(Response(ResultError, None)), sent.code == Ok)
  }

  /** `_request_resource_handler`: host address, query, type dispatch and
      observe handling run in that order; the first failing step ends the
      request with one error response; a NULL request is ignored. */
  function RequestResourceHandler(request: Option<Request>, info: ResourceInfo, mw: Middleware): (r: HandlerOutcome)
    ensures request.None? ==> r.info == info && r.ran == [] && r.response.None? && !r.responseSent
    ensures request.Some? ==> 1 <= |r.ran| <= |PipelineOrder| && r.ran == PipelineOrder[..|r.ran|]
    ensures request.Some? ==> forall i :: 0 <= i < |r.ran| - 1 ==> StageSucceeds(request.value, info, mw, r.ran[i])
    ensures r.response.Some? <==> request.Some? && !StageSucceeds(request.value, info, mw, r.ran[|r.ran| - 1])
    ensures request.Some? && r.response.None? ==> r.ran == PipelineOrder
    ensures r.response.Some? ==> r.response.value == Response(ResultError, None)
    ensures r.responseSent ==> r.response.Some?
    ensures r.info.res == info.res
    ensures r.info.observers.Some? <==> info.observers.Some?
    ensures r.info != info ==> r.response.None? && r.ran == PipelineOrder
    ensures request.Some? && r.response.None? ==>
      r.info.observers == HandleObserver(request.value, info.observers, mw.observerSteps).observers
  {
    if request.None? then HandlerOutcome(info, [], None, false)
    else
      var req := request.value;
      if req.hostAddress.None? then ErrorExit(info, PipelineOrder[..1], mw)
      else if HandleQuery(req) != Ok then ErrorExit(info, PipelineOrder[..2], mw)
      else if HandleRequestByCrudType(req) != Ok then ErrorExit(info, PipelineOrder[..3], mw)
      else
        var observed := HandleObserver(req, info.observers, mw.observerSteps);
        if observed.code != Ok then ErrorExit(info, PipelineOrder, mw)
        else HandlerOutcome(info.(observers := observed.observers), PipelineOrder, None, false)
  }

  // ---------------------------------------------------------------------
  // Resource set-up and tear-down
  // ---------------------------------------------------------------------

  /** Outcomes of the calls `connectivity_set_resource` makes, in order. */
  datatype SetSteps = SetSteps(
    alloc: bool,
    typesCreate: bool,
    typesAdd: bool,
    interfacesCreate: bool,
    addDefault: bool,
    addBatch: bool,
    resourceCreate: bool,
    observersCreate: bool)

  /** Whether the middleware resource got registered. */
  predicate ResourceRegistered(s: SetSteps) {
    s.alloc && s.typesCreate && s.typesAdd && s.interfacesCreate
    && s.addDefault && s.addBatch && s.resourceCreate
  }

  predicate AllSetSteps(s: SetSteps) {
    ResourceRegistered(s) && s.observersCreate
  }

  /** Handles released by set-up and tear-down, in the order released. */
  datatype Release = InterfacesDestroyed | TypesDestroyed | ObserversDestroyed | ResourceDestroyed | RecordFreed

  /** The policies every resource of this service is created with. */
  const ResourcePolicies: set<Policy> := {Discoverable, Observable, Secure}

  /** Position of a release in the clean-up order of a failed set-up:
      interfaces, types, resource, record. */
  function SetUpRank(r: Release): nat {
    match r
    case InterfacesDestroyed => 0
    case TypesDestroyed => 1
    case ResourceDestroyed => 2
    case RecordFreed => 3
    case ObserversDestroyed => 4
  }

  datatype SetOutcome = SetOutcome(code: int, info: Option<ResourceInfo>, released: seq<Release>)

  /** `connectivity_set_resource`: registers `uriPath` with one resource
      type, the default and batch interfaces and the policies above, then
      creates an empty observer set. Any failing call releases what was
      built so far and reports -1. */
  function ConnectivitySetResource(uriPath: string, resourceType: string, steps: SetSteps): (r: SetOutcome)
    ensures r.code == Ok || r.code == Fail
    ensures r.code == Ok <==> AllSetSteps(steps)
    ensures r.info.Some? <==> r.code == Ok
    ensures r.code == Ok ==>
      && r.info.value.observers == Some({})
      && r.info.value.res.Some?
      && r.info.value.res.value.uriPath == uriPath
      && r.info.value.res.value.types == [resourceType]
      && r.info.value.res.value.interfaces == [DefaultInterface, BatchInterface]
      && r.info.value.res.value.policies == {Discoverable, Observable, Secure}
    ensures RecordFreed in r.released <==> r.code == Fail && steps.alloc
    ensures ResourceDestroyed in r.released <==> ResourceRegistered(steps) && !steps.observersCreate
    ensures ObserversDestroyed !in r.released
    ensures TypesDestroyed in r.released <==> steps.alloc && steps.typesCreate
    ensures InterfacesDestroyed in r.released
            <==> steps.alloc && steps.typesCreate && steps.typesAdd && steps.interfacesCreate
    ensures r.code == Fail ==>
      forall i, j :: 0 <= i < j < |r.released| ==> SetUpRank(r.released[i]) < SetUpRank(r.released[j])
    ensures r.code == Ok ==> r.released == [TypesDestroyed, InterfacesDestroyed]
  {
    if !steps.alloc then SetOutcome(Fail, None, [])
    else if !steps.typesCreate then SetOutcome(Fail, None, [RecordFreed])
    else if !steps.typesAdd || !steps.interfacesCreate then SetOutcome(Fail, None, [TypesDestroyed, RecordFreed])
    else if !steps.addDefault || !steps.addBatch || !steps.resourceCreate then
      SetOutcome(Fail, None, [InterfacesDestroyed, TypesDestroyed, RecordFreed])
    else if !steps.observersCreate then
      SetOutcome(Fail, None, [InterfacesDestroyed, TypesDestroyed, ResourceDestroyed, RecordFreed])
    else
      var res := Res(uriPath, [resourceType], [DefaultInterface, BatchInterface], ResourcePolicies);
      SetOutcome(Ok, Some(ResourceInfo(Some(res), Some({}))), [TypesDestroyed, InterfacesDestroyed])
  }

  /** Position of a release in the tear-down order observers, resource,
      record. */
  function UnsetRank(r: Release): nat {
    match r
    case ObserversDestroyed => 0
    case ResourceDestroyed => 1
    case _ => 2
  }

  /** `connectivity_unset_resource`: releases the observer set, then the
      resource, then the record, skipping NULL fields; NULL is ignored. */
  function ConnectivityUnsetResource(info: Option<ResourceInfo>): (released: seq<Release>)
    ensures ObserversDestroyed in released <==> info.Some? && info.value.observers.Some?
    ensures ResourceDestroyed in released <==> info.Some? && info.value.res.Some?
    ensures RecordFreed in released <==> info.Some?
    ensures forall i :: 0 <= i < |released| ==> released[i] in {ObserversDestroyed, ResourceDestroyed, RecordFreed}
    ensures forall i, j :: 0 <= i < j < |released| ==> UnsetRank(released[i]) < UnsetRank(released[j])
  {
    if info.None? then []
    else
      (if info.value.observers.Some? then [ObserversDestroyed] else [])
      + (if info.value.res.Some? then [ResourceDestroyed] else [])
      + [RecordFreed]
  }
}

=== FILE: connectivity_properties.dfy ===
/** Properties of the connectivity layer that relate several calls:
    the observer-set algebra, what a run of requests can do to the
    observer set, notification key independence, and the lifecycle of a
    resource record. */
module ConnectivityProperties {
  import opened Wrappers
  import opened CTypes
  import opened Iotcon
  import opened Connectivity

  /** A request carrying only an observe directive (host, query and type
      all readable). */
  function ObserveRequest(t: ObserveType, id: ObserverId): Request {
    Request(Some(""), Some(None), Some(Get), Some(t), Some(id))
  }

  /** Registering the same id twice leaves the set as one registration does. */
  lemma RegisterIdempotent(s: set<ObserverId>, id: ObserverId, steps: ObserverSteps)
    requires steps.addOk
    ensures var once := HandleObserver(ObserveRequest(Register, id), Some(s), steps);
            HandleObserver(ObserveRequest(Register, id), once.observers, steps) == once
  {
  }

  /** Deregistering an id that was never registered succeeds and changes nothing. */
  lemma DeregisterAbsentIsNoOp(s: set<ObserverId>, id: ObserverId, steps: ObserverSteps)
    requires steps.removeOk && id !in s
    ensures HandleObserver(ObserveRequest(Deregister, id), Some(s), steps) == ObserveOutcome(Ok, Some(s))
  {
  }

  /** Deregistration undoes the registration of a new id. */
  lemma RegisterThenDeregister(s: set<ObserverId>, id: ObserverId, steps: ObserverSteps)
    requires steps.addOk && steps.removeOk && id !in s
    ensures var added := HandleObserver(ObserveRequest(Register, id), Some(s), steps);
            HandleObserver(ObserveRequest(Deregister, id), added.observers, steps).observers == Some(s)
  {
    var added := HandleObserver(ObserveRequest(Register, id), Some(s), steps);
    assert added.observers == Some(s + {id});
    assert (s + {id}) - {id} == s;
  }

  /** One inbound request together with the middleware outcomes it meets. */
  datatype Incoming = Incoming(request: Option<Request>, mw: Middleware)

  /** The resource record after the callback has handled `incoming` in order. */
  function Serve(info: ResourceInfo, incoming: seq<Incoming>): (r: ResourceInfo)
    ensures r.res == info.res
    ensures r.observers.Some? <==> info.observers.Some?
    decreases |incoming|
  {
    if |incoming| == 0 then info
    else Serve(RequestResourceHandler(incoming[0].request, info, incoming[0].mw).info, incoming[1..])
  }

  /** The id a request asks to (de)register under observe type `t`, if any. */
  function DirectiveIds(request: Option<Request>, t: ObserveType): set<ObserverId> {
    if request.Some? && request.value.observeType == Some(t) && request.value.observeId.Some?
    then {request.value.observeId.value}
    else {}
  }

  /** Every id some request in `incoming` asks to register. */
  function RegisteredIds(incoming: seq<Incoming>): set<ObserverId>
    decreases |incoming|
  {
    if |incoming| == 0 then {}
    else DirectiveIds(incoming[0].request, Register) + RegisteredIds(incoming[1..])
  }

  /** Every id some request in `incoming` asks to deregister. */
  function DeregisteredIds(incoming: seq<Incoming>): set<ObserverId>
    decreases |incoming|
  {
    if |incoming| == 0 then {}
    else DirectiveIds(incoming[0].request, Deregister) + DeregisteredIds(incoming[1..])
  }

  /** Over any run of requests, an id becomes an observer only by asking
      to register, and stops being one only by asking to deregister. */
  lemma {:induction false} ObserverProvenance(info: ResourceInfo, incoming: seq<Incoming>)
    requires info.observers.Some?
    ensures forall x :: x in Serve(info, incoming).observers.value ==>
      x in info.observers.value || x in RegisteredIds(incoming)
    ensures forall x :: x in info.observers.value ==>
      x in Serve(info, incoming).observers.value || x in DeregisteredIds(incoming)
    decreases |incoming|
  {
    if |incoming| > 0 {
      var step := RequestResourceHandler(incoming[0].request, info, incoming[0].mw);
      var next := step.info;
      assert forall x :: x in next.observers.value ==>
        x in info.observers.value || x in DirectiveIds(incoming[0].request, Register) by {
        if next != info {
          var req := incoming[0].request.value;
          assert next.observers == HandleObserver(req, info.observers, incoming[0].mw.observerSteps).observers;
        }
      }
      assert forall x :: x in info.observers.value ==>
        x in next.observers.value || x in DirectiveIds(incoming[0].request, Deregister) by {
        if next != info {
          var req := incoming[0].request.value;
          assert next.observers == HandleObserver(req, info.observers, incoming[0].mw.observerSteps).observers;
        }
      }
      ObserverProvenance(next, incoming[1..]);
    }
  }

  /** The value a notification carries does not depend on the key passed. */
  lemma NotifyIgnoresKey(info: Option<ResourceInfo>, k1: string, k2: string, value: Value, steps: RepresentationSteps, notifyOk: bool)
    ensures Notify(info, k1, value, steps, notifyOk) == Notify(info, k2, value, steps, notifyOk)
  {
  }

  /** Tearing down a successfully set-up resource releases its observer
      set, its middleware resource and its record, in that order. */
  lemma SetThenUnset(uriPath: string, resourceType: string, steps: SetSteps)
    requires AllSetSteps(steps)
    ensures ConnectivityUnsetResource(ConnectivitySetResource(uriPath, resourceType, steps).info)
      == [ObserversDestroyed, ResourceDestroyed, RecordFreed]
  {
  }

  /** A freshly set-up resource notifies nobody until a client registers. */
  lemma FreshResourceHasNoAudience(uriPath: string, resourceType: string, steps: SetSteps,
                                   value: Value, repSteps: RepresentationSteps, notifyOk: bool)
    requires AllSetSteps(steps) && AllRepresentationSteps(repSteps)
    ensures var n := Notify(ConnectivitySetResource(uriPath, resourceType, steps).info, NotifyKey, value, repSteps, notifyOk);
            n.attempted.Some? && n.attempted.value.audience == {}
  {
  }

  /** The door scenario: resource /door/1 is set up, client 7 registers
      through a GET request with an observe directive, and the next
      notification goes to client 7 carrying `opened = true`. */
  lemma DoorScenario(steps: SetSteps, mw: Middleware, repSteps: RepresentationSteps)
    requires AllSetSteps(steps) && mw.observerSteps.addOk && AllRepresentationSteps(repSteps)
    ensures var door := ConnectivitySetResource("/door/1", "org.tizen.door", steps).info.value;
            var after := RequestResourceHandler(Some(ObserveRequest(Register, 7)), door, mw);
            var n := NotifyBool(Some(after.info), "distance", true, repSteps, true);
            && after.response.None?
            && after.info.observers == Some({7})
            && n.code == Ok
            && n.attempted == Some(Notification(Representation("/door/1", [Attribute("opened", BoolValue(true))]), {7}))
  {
    var door := ConnectivitySetResource("/door/1", "org.tizen.door", steps).info.value;
    assert door.observers == Some({});
    var after := RequestResourceHandler(Some(ObserveRequest(Register, 7)), door, mw);
    assert HandleObserver(ObserveRequest(Register, 7), door.observers, mw.observerSteps).observers == Some({} + {7});
    assert {} + {7} == {7 as ObserverId};
  }
}

=== FILE: ctypes.dfy ===
/** The C scalar types the core passes around. */
module CTypes {

  /** A C `int` on the target (32 bits, two's complement). */
  newtype int32 = x: int | -0x8000_0000 <= x < 0x8000_0000

  /** A C `double`, kept as its 64 raw bits: the model never computes
      with floating-point values, it only carries them. */
  datatype Double = Double(bits: bv64)

  /** The return convention of every function in the core: 0 on success,
      -1 on failure. */
  const Ok: int := 0
  const Fail: int := -1
}

=== FILE: iotcon.dfy ===
/** The part of the iotcon middleware the connectivity layer touches,
    reduced to values. Handles become records; every middleware call
    that can fail is represented by the success flag it reports. */
module Iotcon {
  import opened Wrappers
  import opened CTypes

  /** Identifier the middleware assigns to an observing client. */
  type ObserverId = int32

  /** Resource policy bits (iotcon_resource_policy_e). */
  datatype Policy = Discoverable | Observable | Active | Slow | Secure | ExplicitDiscoverable

  /** Resource interfaces (IOTCON_INTERFACE_*). */
  datatype Interface = DefaultInterface | LinkListInterface | BatchInterface | GroupInterface | ReadOnlyInterface

  /** A resource registered with the middleware. */
  datatype Res = Res(
    uriPath: string,
    types: seq<string>,
    interfaces: seq<Interface>,
    policies: set<Policy>)

  /** Attribute values of the three kinds the core produces. */
  datatype Value = BoolValue(b: bool) | IntValue(i: int32) | DoubleValue(d: Double)

  datatype Attribute = Attribute(key: string, value: Value)

  /** A representation: the resource path and its attributes. */
  datatype Representation = Representation(uriPath: string, attributes: seq<Attribute>)

  /** Request types (iotcon_request_type_e); `OtherType` stands for any
      value outside the four CRUD types. */
  datatype RequestType = Get | Put | Post | Delete | OtherType

  /** Observe types (iotcon_observe_type_e). */
  datatype ObserveType = NoObserveType | Register | Deregister

  /** A query is a list of key/value pairs. */
  type Query = seq<(string, string)>

  /** An inbound request, as seen through the iotcon getters. A field is
      `None` exactly when the corresponding getter reports an error. */
  datatype Request = Request(
    hostAddress: Option<string>,
    query: Option<Option<Query>>,   // outer None: getter failed; inner None: request carries no query
    requestType: Option<RequestType>,
    observeType: Option<ObserveType>,
    observeId: Option<ObserverId>)

  /** Response results (iotcon_response_result_e). */
  datatype ResponseResult = ResultOk | ResultError | ResultResourceCreated | ResultResourceDeleted | ResultResourceChanged

  /** A response as handed to the middleware for sending. */
  datatype Response = Response(result: ResponseResult, representation: Option<Representation>)
}

=== FILE: json.dfy ===
/** JSON documents as trees of values, the shape json-glib's builder
    produces. The textual rendering is not modelled. */
module Json {
  import opened CTypes

  datatype JsonValue =
    | JString(s: string)
    | JInt(i: int)
    | JDouble(d: Double)
    | JArray(items: seq<JsonValue>)
    | JObject(members: seq<Member>)

  /** A named member of an object. */
  datatype Member = Member(name: string, value: JsonValue)
}

=== FILE: sensors.dfy ===
/** The sensor snapshot record of `web_util_json_add_sensor_data`: which
    sensors are enabled in the bitmask, in what order their readings
    appear, and the `SensorEnabled` list naming them. */
module Sensors {
  import opened Wrappers
  import opened CTypes
  import opened Json

  /** The fifteen sensor kinds, declared in the order the record lists them. */
  datatype Sensor =
    | Motion | Flame | Humidity | Temperature | Vibration
    | CO2 | SoundLevel | Tilt | Light | Collision
    | Obstacle | Distance | Rain | Touch | Gas

  const SensorOrder: seq<Sensor> :=
    [Motion, Flame, Humidity, Temperature, Vibration,
     CO2, SoundLevel, Tilt, Light, Collision,
     Obstacle, Distance, Rain, Touch, Gas]

  /** Position of a sensor in the record order, which is also the bit of
      its WEB_UTIL_SENSOR_* flag. */
  function Index(s: Sensor): (i: nat)
    ensures i < |SensorOrder| && SensorOrder[i] == s
  {
    match s
    case Motion => 0
    case Flame => 1
    case Humidity => 2
    case Temperature => 3
    case Vibration => 4
    case CO2 => 5
    case SoundLevel => 6
    case Tilt => 7
    case Light => 8
    case Collision => 9
    case Obstacle => 10
    case Distance => 11
    case Rain => 12
    case Touch => 13
    case Gas => 14
  }

  /** The WEB_UTIL_SENSOR_* flag of a sensor: bit `Index(s)`. */
  function Flag(s: Sensor): bv32 {
    match s
    case Motion => 0x0001
    case Flame => 0x0002
    case Humidity => 0x0004
    case Temperature => 0x0008
    case Vibration => 0x0010
    case CO2 => 0x0020
    case SoundLevel => 0x0040
    case Tilt => 0x0080
    case Light => 0x0100
    case Collision => 0x0200
    case Obstacle => 0x0400
    case Distance => 0x0800
    case Rain => 0x1000
    case Touch => 0x2000
    case Gas => 0x4000
  }

  predicate Enabled(mask: bv32, s: Sensor) {
    mask & Flag(s) != 0
  }

  /** The JSON member name of a sensor. */
  function Name(s: Sensor): string {
    match s
    case Motion => "Motion"
    case Flame => "Flame"
    case Humidity => "Humidity"
    case Temperature => "Temperature"
    case Vibration => "Vibration"
    case CO2 => "CO2"
    case SoundLevel => "SoundLevel"
    case Tilt => "Tilt"
    case Light => "Light"
    case Collision => "Collision"
    case Obstacle => "Obstacle"
    case Distance => "Distance"
    case Rain => "Rain"
    case Touch => "Touch"
    case Gas => "Gas"
  }

  const IdName: string := "SensorPiID"
  const EnabledName: string := "SensorEnabled"
  const HashName: string := "Hash"

  /** web_util_sensor_data_s: one reading per sensor, the enabled mask and
      an optional hash string. */
  datatype SensorData = SensorData(
    motion: int32,
    flame: int32,
    humidity: Double,
    temperature: Double,
    vibration: int32,
    co2: Double,
    soundLevel: int32,
    tilt: int32,
    light: int32,
    collision: int32,
    obstacle: int32,
    distance: Double,
    rain: int32,
    touch: int32,
    gas: int32,
    enabledSensor: bv32,
    hash: Option<string>)

  /** The JSON value a sensor's reading is added as: integers for the
      counters and switches, doubles for humidity, temperature, CO2 and
      distance. */
  function Reading(d: SensorData, s: Sensor): JsonValue {
    match s
    case Motion => JInt(d.motion as int)
    case Flame => JInt(d.flame as int)
    case Humidity => JDouble(d.humidity)
    case Temperature => JDouble(d.temperature)
    case Vibration => JInt(d.vibration as int)
    case CO2 => JDouble(d.co2)
    case SoundLevel => JInt(d.soundLevel as int)
    case Tilt => JInt(d.tilt as int)
    case Light => JInt(d.light as int)
    case Collision => JInt(d.collision as int)
    case Obstacle => JInt(d.obstacle as int)
    case Distance => JDouble(d.distance)
    case Rain => JInt(d.rain as int)
    case Touch => JInt(d.touch as int)
    case Gas => JInt(d.gas as int)
  }

  // ---------------------------------------------------------------------
  // Reference: the enabled sensors, filtered from the fixed order
  // ---------------------------------------------------------------------

  /** The enabled flag of every sensor, in record order. */
  function FlagBits(mask: bv32): seq<bool>
  {
    seq(|SensorOrder|, i requires 0 <= i < |SensorOrder| => Enabled(mask, SensorOrder[i]))
  }

  /** The sensors of `SensorOrder[k..]` whose bit is set, in order. */
  function EnabledFrom(bits: seq<bool>, k: nat): (r: seq<Sensor>)
    requires |bits| == |SensorOrder| && k <= |SensorOrder|
    ensures forall s :: s in r <==> k <= Index(s) && bits[Index(s)]
    ensures forall i, j :: 0 <= i < j < |r| ==> Index(r[i]) < Index(r[j])
    decreases |SensorOrder| - k
  {
    if k == |SensorOrder| then []
    else
      var s := SensorOrder[k];
      var rest := EnabledFrom(bits, k + 1);
      assert Index(s) == k;
      if bits[k] then [s] + rest else rest
  }

  /** The sensors enabled in `mask`, in record order. */
  function EnabledSensors(mask: bv32): (r: seq<Sensor>)
    ensures forall s :: s in r <==> Enabled(mask, s)
    ensures forall i, j :: 0 <= i < j < |r| ==> Index(r[i]) < Index(r[j])
  {
    EnabledFrom(FlagBits(mask), 0)
  }

  /** `g` applied to each of `sensors`, in order. */
  function MapSensors<T>(g: Sensor -> T, sensors: seq<Sensor>): (r: seq<T>)
    ensures |r| == |sensors|
    ensures forall i :: 0 <= i < |sensors| ==> r[i] == g(sensors[i])
  {
    if |sensors| == 0 then []
    else [g(sensors[0])] + MapSensors(g, sensors[1..])
  }

  // ---------------------------------------------------------------------
  // As written: one flag test per sensor, in source order
  // ---------------------------------------------------------------------

  /** One `if (enabled_sensor & FLAG)` test: contributes `g(s)` when the
      flag is set and nothing otherwise. */
  function Select<T>(mask: bv32, g: Sensor -> T, s: Sensor): seq<T> {
    if Enabled(mask, s) then [g(s)] else []
  }

  /** The fifteen flag tests, one after another in source order. Both the
      reading members and the `SensorEnabled` array are built this way. */
  function FlagTests<T>(mask: bv32, g: Sensor -> T): seq<T> {
    Select(mask, g, Motion) + Select(mask, g, Flame) + Select(mask, g, Humidity)
    + Select(mask, g, Temperature) + Select(mask, g, Vibration) + Select(mask, g, CO2)
    + Select(mask, g, SoundLevel) + Select(mask, g, Tilt) + Select(mask, g, Light)
    + Select(mask, g, Collision) + Select(mask, g, Obstacle) + Select(mask, g, Distance)
    + Select(mask, g, Rain) + Select(mask, g, Touch) + Select(mask, g, Gas)
  }

  /** The member a reading is added as. */
  function ReadingMember(d: SensorData): Sensor -> Member {
    s => Member(Name(s), Reading(d, s))
  }

  /** The `SensorEnabled` entry naming a sensor. */
  function NameEntry(s: Sensor): JsonValue {
    JString(Name(s))
  }

  /** The reading members of one record. */
  function ReadingMembers(d: SensorData): seq<Member> {
    FlagTests(d.enabledSensor, ReadingMember(d))
  }

  /** The `SensorEnabled` array items of one record. */
  function EnabledList(d: SensorData): seq<JsonValue> {
    FlagTests(d.enabledSensor, NameEntry)
  }

  /** The `Hash` member, present only when a hash is given. */
  function HashMember(hash: Option<string>): seq<Member> {
    match hash
    case Some(h) => [Member(HashName, JString(h))]
    case None => []
  }

  /** The record object one successful add appends to the array. */
  function SensorRecord(id: string, d: SensorData): JsonValue {
    JObject([Member(IdName, JString(id))] + ReadingMembers(d)
            + [Member(EnabledName, JArray(EnabledList(d)))] + HashMember(d.hash))
  }

  // ---------------------------------------------------------------------
  // The flag tests as written agree with the reference
  // ---------------------------------------------------------------------

  /** The flag tests from the `k`-th on, as a right fold. */
  function SelectFrom<T>(mask: bv32, g: Sensor -> T, k: nat): seq<T>
    requires k <= |SensorOrder|
    decreases |SensorOrder| - k
  {
    if k == |SensorOrder| then [] else Select(mask, g, SensorOrder[k]) + SelectFrom(mask, g, k + 1)
  }

  lemma {:induction false} MapSensorsAppend<T>(g: Sensor -> T, a: seq<Sensor>, b: seq<Sensor>)
    ensures MapSensors(g, a + b) == MapSensors(g, a) + MapSensors(g, b)
    decreases |a|
  {
    if |a| > 0 {
      assert (a + b)[1..] == a[1..] + b;
      MapSensorsAppend(g, a[1..], b);
    } else {
      assert a + b == b;
    }
  }

  /** From the `k`-th flag test on, the tests select exactly the enabled
      sensors of `SensorOrder[k..]`, in order. */
  lemma {:induction false} SelectFromIsReference<T>(mask: bv32, g: Sensor -> T, k: nat)
    requires k <= |SensorOrder|
    ensures SelectFrom(mask, g, k) == MapSensors(g, EnabledFrom(FlagBits(mask), k))
    decreases |SensorOrder| - k
  {
    if k < |SensorOrder| {
      var bits := FlagBits(mask);
      var s := SensorOrder[k];
      SelectFromIsReference(mask, g, k + 1);
      assert bits[k] == Enabled(mask, s);
      var head: seq<Sensor> := if bits[k] then [s] else [];
      MapSensorsAppend(g, head, EnabledFrom(bits, k + 1));
    }
  }

  /** One step of re-associating a left-nested concatenation. */
  lemma Shift<T>(prefix: seq<T>, f: seq<T>, rest: seq<T>, next: seq<T>, whole: seq<T>)
    requires rest == f + next
    requires prefix + rest == whole
    ensures (prefix + f) + next == whole
  {
    assert (prefix + f) + next == prefix + (f + next);
  }

  /** The left-nested tests as written equal the right fold. */
  lemma FlagTestsUnroll<T>(mask: bv32, g: Sensor -> T)
    ensures FlagTests(mask, g) == SelectFrom(mask, g, 0)
  {
    var whole := SelectFrom(mask, g, 0);
    var p := Select(mask, g, SensorOrder[0]);
    assert p + SelectFrom(mask, g, 1) == whole;
    Shift(p, Select(mask, g, SensorOrder[1]), SelectFrom(mask, g, 1), SelectFrom(mask, g, 2), whole);
    p := p + Select(mask, g, SensorOrder[1]);
    Shift(p, Select(mask, g, SensorOrder[2]), SelectFrom(mask, g, 2), SelectFrom(mask, g, 3), whole);
    p := p + Select(mask, g, SensorOrder[2]);
    Shift(p, Select(mask, g, SensorOrder[3]), SelectFrom(mask, g, 3), SelectFrom(mask, g, 4), whole);
    p := p + Select(mask, g, SensorOrder[3]);
    Shift(p, Select(mask, g, SensorOrder[4]), SelectFrom(mask, g, 4), SelectFrom(mask, g, 5), whole);
    p := p + Select(mask, g, SensorOrder[4]);
    Shift(p, Select(mask, g, SensorOrder[5]), SelectFrom(mask, g, 5), SelectFrom(mask, g, 6), whole);
    p := p + Select(mask, g, SensorOrder[5]);
    Shift(p, Select(mask, g, SensorOrder[6]), SelectFrom(mask, g, 6), SelectFrom(mask, g, 7), whole);
    p := p + Select(mask, g, SensorOrder[6]);
    Shift(p, Select(mask, g, SensorOrder[7]), SelectFrom(mask, g, 7), SelectFrom(mask, g, 8), whole);
    p := p + Select(mask, g, SensorOrder[7]);
    Shift(p, Select(mask, g, SensorOrder[8]), SelectFrom(mask, g, 8), SelectFrom(mask, g, 9), whole);
    p := p + Select(mask, g, SensorOrder[8]);
    Shift(p, Select(mask, g, SensorOrder[9]), SelectFrom(mask, g, 9), SelectFrom(mask, g, 10), whole);
    p := p + Select(mask, g, SensorOrder[9]);
    Shift(p, Select(mask, g, SensorOrder[10]), SelectFrom(mask, g, 10), SelectFrom(mask, g, 11), whole);
    p := p + Select(mask, g, SensorOrder[10]);
    Shift(p, Select(mask, g, SensorOrder[11]), SelectFrom(mask, g, 11), SelectFrom(mask, g, 12), whole);
    p := p + Select(mask, g, SensorOrder[11]);
    Shift(p, Select(mask, g, SensorOrder[12]), SelectFrom(mask, g, 12), SelectFrom(mask, g, 13), whole);
    p := p + Select(mask, g, SensorOrder[12]);
    Shift(p, Select(mask, g, SensorOrder[13]), SelectFrom(mask, g, 13), SelectFrom(mask, g, 14), whole);
    p := p + Select(mask, g, SensorOrder[13]);
    Shift(p, Select(mask, g, SensorOrder[14]), SelectFrom(mask, g, 14), SelectFrom(mask, g, 15), whole);
    p := p + Select(mask, g, SensorOrder[14]);
    assert p + [] == p;
  }

  /** The fifteen flag tests as written select exactly the enabled sensors,
      in record order. */
  lemma FlagTestsInOrder<T>(mask: bv32, g: Sensor -> T)
    ensures FlagTests(mask, g) == MapSensors(g, EnabledSensors(mask))
  {
    FlagTestsUnroll(mask, g);
    SelectFromIsReference(mask, g, 0);
  }

  // ---------------------------------------------------------------------
  // Shape of one record
  // ---------------------------------------------------------------------

  /** Different sensors have different member names. */
  lemma NameInjective(a: Sensor, b: Sensor)
    ensures Name(a) == Name(b) ==> a == b
  {
  }

  /** No sensor is named like one of the fixed members of a record. */
  lemma NameNotReserved(s: Sensor)
    ensures Name(s) != IdName && Name(s) != EnabledName && Name(s) != HashName
  {
  }

  /** The members of a record built from the reference list of enabled
      sensors. */
  function ReferenceRecord(id: string, d: SensorData): seq<Member> {
    var e := EnabledSensors(d.enabledSensor);
    [Member(IdName, JString(id))] + MapSensors(ReadingMember(d), e)
    + [Member(EnabledName, JArray(MapSensors(NameEntry, e)))] + HashMember(d.hash)
  }

  /** The layout of a record for the sensor list `e`: `SensorPiID` first,
      then one member per sensor of `e` in order, then the `SensorEnabled`
      array naming those sensors in the same order, then `Hash` when a hash
      is given. */
  ghost predicate LaidOut(ms: seq<Member>, id: string, d: SensorData, e: seq<Sensor>) {
    && |ms| == |e| + 2 + (if d.hash.Some? then 1 else 0)
    && ms[0] == Member(IdName, JString(id))
    && (forall i :: 0 <= i < |e| ==> ms[1 + i] == Member(Name(e[i]), Reading(d, e[i])))
    && ms[1 + |e|].name == EnabledName
    && ms[1 + |e|].value.JArray?
    && |ms[1 + |e|].value.items| == |e|
    && (forall i :: 0 <= i < |e| ==> ms[1 + |e|].value.items[i] == JString(Name(e[i])))
    && (d.hash.Some? ==> ms[|ms| - 1] == Member(HashName, JString(d.hash.value)))
  }

  /** The layout of a record whose listed sensors are the enabled ones, in
      record order. */
  ghost predicate WellShaped(ms: seq<Member>, id: string, d: SensorData) {
    LaidOut(ms, id, d, EnabledSensors(d.enabledSensor))
  }

  /** The record as written equals the record built from the reference
      list of enabled sensors. */
  lemma RecordIsReference(id: string, d: SensorData)
    ensures SensorRecord(id, d).members == ReferenceRecord(id, d)
  {
    FlagTestsInOrder(d.enabledSensor, ReadingMember(d));
    FlagTestsInOrder(d.enabledSensor, NameEntry);
  }

  /** Positions in a list made of a head, a middle part, one more element
      and a tail. */
  lemma Layout<T>(head: T, mid: seq<T>, sep: T, tail: seq<T>)
    ensures var ms := [head] + mid + [sep] + tail;
            && |ms| == |mid| + 2 + |tail|
            && ms[0] == head
            && (forall i :: 0 <= i < |mid| ==> ms[1 + i] == mid[i])
            && ms[1 + |mid|] == sep
            && (|tail| > 0 ==> ms[|ms| - 1] == tail[|tail| - 1])
  {
    var ms := [head] + mid + [sep] + tail;
    assert forall i :: 0 <= i < |mid| ==> ms[1 + i] == mid[i];
  }

  /** Joining the fixed members around the readings of any sensor list
      gives the layout of `LaidOut`. */
  lemma MembersLaidOut(id: string, d: SensorData, e: seq<Sensor>)
    ensures LaidOut([Member(IdName, JString(id))] + MapSensors(ReadingMember(d), e)
                    + [Member(EnabledName, JArray(MapSensors(NameEntry, e)))] + HashMember(d.hash),
                    id, d, e)
  {
    var readings := MapSensors(ReadingMember(d), e);
    var names := MapSensors(NameEntry, e);
    var ms := [Member(IdName, JString(id))] + readings + [Member(EnabledName, JArray(names))] + HashMember(d.hash);
    Layout(Member(IdName, JString(id)), readings, Member(EnabledName, JArray(names)), HashMember(d.hash));
    forall i | 0 <= i < |e| ensures ms[1 + i] == Member(Name(e[i]), Reading(d, e[i])) {
      assert ms[1 + i] == readings[i];
    }
  }

  lemma ReferenceRecordShape(id: string, d: SensorData)
    ensures WellShaped(ReferenceRecord(id, d), id, d)
  {
    MembersLaidOut(id, d, EnabledSensors(d.enabledSensor));
  }

  /** Every record the builder adds has the layout of `WellShaped`. */
  lemma RecordShape(id: string, d: SensorData)
    ensures WellShaped(SensorRecord(id, d).members, id, d)
  {
    RecordIsReference(id, d);
    ReferenceRecordShape(id, d);
  }

  /** Every member of a laid-out record is one of the fixed members or
      the reading of a listed sensor. */
  lemma LaidOutPosition(ms: seq<Member>, id: string, d: SensorData, e: seq<Sensor>, i: int)
    requires LaidOut(ms, id, d, e) && 0 <= i < |ms|
    ensures || ms[i].name == IdName
            || ms[i].name == EnabledName
            || (d.hash.Some? && i == |ms| - 1 && ms[i].name == HashName)
            || (1 <= i <= |e| && ms[i].name == Name(e[i - 1]))
  {
    if i == 0 {
      assert ms[i].name == IdName;
    } else if i <= |e| {
      assert ms[1 + (i - 1)] == Member(Name(e[i - 1]), Reading(d, e[i - 1]));
    } else if i == 1 + |e| {
      assert ms[i].name == EnabledName;
    } else {
      assert d.hash.Some? && i == |ms| - 1;
    }
  }

  /** In a laid-out record, a member is named after a sensor exactly when
      the sensor is listed. */
  lemma LaidOutSensorMember(ms: seq<Member>, id: string, d: SensorData, e: seq<Sensor>, s: Sensor)
    requires LaidOut(ms, id, d, e)
    ensures (exists i :: 0 <= i < |ms| && ms[i].name == Name(s)) <==> s in e
  {
    if s in e {
      var k :| 0 <= k < |e| && e[k] == s;
      assert ms[1 + k].name == Name(s);
    }
    if i :| 0 <= i < |ms| && ms[i].name == Name(s) {
      LaidOutPosition(ms, id, d, e, i);
      NameNotReserved(s);
      if 1 <= i <= |e| {
        NameInjective(e[i - 1], s);
        assert e[i - 1] in e;
      }
    }
  }

  /** In a laid-out record, a `Hash` member is present exactly when a hash
      is given. */
  lemma LaidOutHashMember(ms: seq<Member>, id: string, d: SensorData, e: seq<Sensor>)
    requires LaidOut(ms, id, d, e)
    ensures (exists i :: 0 <= i < |ms| && ms[i].name == HashName) <==> d.hash.Some?
  {
    if d.hash.Some? {
      assert ms[|ms| - 1].name == HashName;
    }
    if i :| 0 <= i < |ms| && ms[i].name == HashName {
      LaidOutPosition(ms, id, d, e, i);
      assert IdName != HashName && EnabledName != HashName;
      if 1 <= i <= |e| {
        NameNotReserved(e[i - 1]);
      }
    }
  }

  /** In a well-shaped record, a member is named after a sensor exactly
      when its flag is set, and a `Hash` member is present exactly when a
      hash is given. */
  lemma ShapedMembers(ms: seq<Member>, id: string, d: SensorData, s: Sensor)
    requires WellShaped(ms, id, d)
    ensures (exists i :: 0 <= i < |ms| && ms[i].name == Name(s)) <==> Enabled(d.enabledSensor, s)
    ensures (exists i :: 0 <= i < |ms| && ms[i].name == HashName) <==> d.hash.Some?
  {
    var e := EnabledSensors(d.enabledSensor);
    LaidOutSensorMember(ms, id, d, e, s);
    LaidOutHashMember(ms, id, d, e);
    assert s in e <==> Enabled(d.enabledSensor, s);
  }

  /** A record has a member named after a sensor exactly when the sensor's
      flag is set, and a `Hash` member exactly when a hash is given. */
  lemma RecordMembers(id: string, d: SensorData, s: Sensor)
    ensures var ms := SensorRecord(id, d).members;
            && ((exists i :: 0 <= i < |ms| && ms[i].name == Name(s)) <==> Enabled(d.enabledSensor, s))
            && ((exists i :: 0 <= i < |ms| && ms[i].name == HashName) <==> d.hash.Some?)
  {
    RecordShape(id, d);
    ShapedMembers(SensorRecord(id, d).members, id, d, s);
  }
}

=== FILE: webutil.dfy ===
/** The sensor-snapshot JSON builder of the web utility: a single builder
    handle with `is_begin` / `is_end` flags that guard the four phases
    begin, add records, end, read out. */
module WebUtil {
  import opened Wrappers
  import opened CTypes
  import opened Json
  import opened Sensors

  /** The builder's content: the records added so far to the
      `SensorDataList` array it keeps open between begin and end. */
  datatype Builder = Builder(records: seq<JsonValue>)

  /** wu_json_handle: the builder (NULL when absent) and the phase flags. */
  datatype JsonHandle = JsonHandle(builder: Option<Builder>, isBegin: bool, isEnd: bool)

  /** The handle's static initial value. */
  const InitialHandle: JsonHandle := JsonHandle(None, false, false)

  /** The name of the one member of the document's root object. */
  const ListName: string := "SensorDataList"

  /** The document a finished builder holds. */
  function Document(records: seq<JsonValue>): JsonValue {
    JObject([Member(ListName, JArray(records))])
  }

  /** A phase operation's return value and the handle afterwards. */
  datatype Step = Step(code: int, handle: JsonHandle)

  /** `web_util_json_init`: drops any previous builder, clears both flags
      and creates a new, empty builder; `created` is whether that worked. */
  function JsonInit(h: JsonHandle, created: bool): (r: Step)
    ensures !r.handle.isBegin && !r.handle.isEnd
    ensures r.code == Ok <==> created
    ensures r.code == Ok ==> r.handle.builder == Some(Builder([]))
    ensures r.code != Ok ==> r.code == Fail && r.handle.builder.None?
  {
    var cleared := JsonHandle(None, false, false);
    if created then Step(Ok, cleared.(builder := Some(Builder([]))))
    else Step(Fail, cleared)
  }

  /** `web_util_json_fini`: drops the builder and clears both flags. */
  function JsonFini(h: JsonHandle): (r: Step)
    ensures r.code == Ok
    ensures r.handle.builder.None? && !r.handle.isBegin && !r.handle.isEnd
  {
    Step(Ok, InitialHandle)
  }

  /** Whether the guards of `web_util_json_data_array_begin` pass. */
  predicate CanBegin(h: JsonHandle) {
    h.builder.Some? && !h.isBegin && !h.isEnd
  }

  /** Whether the handle is strictly between begin and end. */
  predicate InsideArray(h: JsonHandle) {
    h.builder.Some? && h.isBegin && !h.isEnd
  }

  /** Whether the guards of `web_util_get_json_string` pass. */
  predicate Finished(h: JsonHandle) {
    h.builder.Some? && h.isBegin && h.isEnd
  }

  /** `web_util_json_data_array_begin`: opens the root object and its
      `SensorDataList` array and sets `is_begin`. */
  function DataArrayBegin(h: JsonHandle): (r: Step)
    ensures r.code == Ok <==> CanBegin(h)
    ensures r.code == Ok ==> r.handle == h.(isBegin := true)
    ensures r.code != Ok ==> r.code == Fail && r.handle == h
  {
    if h.builder.None? then Step(Fail, h)
    else if h.isBegin then Step(Fail, h)
    else if h.isEnd then Step(Fail, h)
    else Step(Ok, h.(isBegin := true))
  }

  /** `web_util_json_data_array_end`: closes the array and the root object
      and sets `is_end`. */
  function DataArrayEnd(h: JsonHandle): (r: Step)
    ensures r.code == Ok <==> InsideArray(h)
    ensures r.code == Ok ==> r.handle == h.(isEnd := true)
    ensures r.code != Ok ==> r.code == Fail && r.handle == h
  {
    if h.builder.None? then Step(Fail, h)
    else if !h.isBegin then Step(Fail, h)
    else if h.isEnd then Step(Fail, h)
    else Step(Ok, h.(isEnd := true))
  }

  /** The identifier a record is filed under: the caller's, or else the
      one read from the configuration file (`None` when that read fails). */
  function SensorPiId(sensorpiId: Option<string>, confPath: Option<string>): Option<string>
  {
    if sensorpiId.Some? then sensorpiId else confPath
  }

  /** Whether `web_util_json_add_sensor_data` adds a record. */
  predicate AddSucceeds(h: JsonHandle, sensorpiId: Option<string>, data: Option<SensorData>, confPath: Option<string>) {
    var id := SensorPiId(sensorpiId, confPath);
    InsideArray(h) && data.Some? && id.Some? && |id.value| > 0
  }

  /** `web_util_json_add_sensor_data`: appends one record, built from
      `data`, to the open array. It fails, adding nothing, outside the
      array, without data, or without a non-empty identifier. */
  function AddSensorData(h: JsonHandle, sensorpiId: Option<string>, data: Option<SensorData>, confPath: Option<string>): (r: Step)
    ensures r.code == Ok <==> AddSucceeds(h, sensorpiId, data, confPath)
    ensures r.code != Ok ==> r.code == Fail && r.handle == h
    ensures r.code == Ok ==>
      && r.handle.isBegin == h.isBegin && r.handle.isEnd == h.isEnd
      && r.handle.builder.Some?
      && |r.handle.builder.value.records| == |h.builder.value.records| + 1
      && r.handle.builder.value.records[..|h.builder.value.records|] == h.builder.value.records
      && r.handle.builder.value.records[|h.builder.value.records|]
         == SensorRecord(SensorPiId(sensorpiId, confPath).value, data.value)
  {
    if h.builder.None? || !h.isBegin || h.isEnd then Step(Fail, h)
    else if data.None? then Step(Fail, h)
    else
      var path := if sensorpiId.Some? then sensorpiId else confPath;
      if path.None? then Step(Fail, h)
      else if |path.value| == 0 then Step(Fail, h)
      else
        var records := h.builder.value.records + [SensorRecord(path.value, data.value)];
        Step(Ok, h.(builder := Some(Builder(records))))
  }

  /** `web_util_get_json_string`: the finished document, or nothing before
      both begin and end have run, when the builder yields no root node
      (`rootObtained` false) or when no generator can be made. The handle
      is left as it is. */
  function GetJsonString(h: JsonHandle, rootObtained: bool, generatorCreated: bool): (r: Option<JsonValue>)
    ensures r.Some? <==> Finished(h) && rootObtained && generatorCreated
    ensures r.Some? ==> r.value == Document(h.builder.value.records)
  {
    if h.builder.None? || !h.isBegin || !h.isEnd then None
    else if !rootObtained then None
    else if !generatorCreated then None
    else Some(JObject([Member("SensorDataList", JArray(h.builder.value.records))]))
  }
}

=== FILE: webutil_properties.dfy ===
/** Properties of sequences of calls into the JSON builder: the phase
    invariant, what a complete session produces, and what `fini` and
    `end` shut off. */
module WebUtilProperties {
  import opened Wrappers
  import opened CTypes
  import opened Json
  import opened Sensors
  import opened WebUtil

  /** The invariant every reachable handle keeps: `is_end` only after
      `is_begin`, `is_begin` only with a builder, and no record in a
      builder whose array has not been opened. */
  predicate Wf(h: JsonHandle) {
    && (h.isEnd ==> h.isBegin)
    && (h.isBegin ==> h.builder.Some?)
    && (h.builder.Some? && !h.isBegin ==> h.builder.value.records == [])
  }

  /** One call into the builder, with the outcomes of what lies outside
      it (whether a builder could be made, the configuration's id). */
  datatype JsonOp =
    | Init(created: bool)
    | Fini
    | Begin
    | Add(sensorpiId: Option<string>, data: Option<SensorData>, confPath: Option<string>)
    | End

  function Apply(h: JsonHandle, op: JsonOp): (r: Step)
    ensures Wf(h) ==> Wf(r.handle)
    ensures r.code == Ok || r.code == Fail
  {
    match op
    case Init(created) => JsonInit(h, created)
    case Fini => JsonFini(h)
    case Begin => DataArrayBegin(h)
    case Add(id, data, conf) => AddSensorData(h, id, data, conf)
    case End => DataArrayEnd(h)
  }

  /** The return codes of a sequence of calls and the handle after it. */
  datatype Trace = Trace(codes: seq<int>, handle: JsonHandle)

  /** Whether every call returned `Ok`. */
  predicate AllOk(codes: seq<int>) {
    forall i :: 0 <= i < |codes| ==> codes[i] == Ok
  }

  function Run(h: JsonHandle, ops: seq<JsonOp>): (r: Trace)
    ensures |r.codes| == |ops|
    decreases |ops|
  {
    if |ops| == 0 then Trace([], h)
    else
      var s := Apply(h, ops[0]);
      var t := Run(s.handle, ops[1..]);
      Trace([s.code] + t.codes, t.handle)
  }

  /** Every sequence of calls keeps the invariant. */
  lemma {:induction false} RunPreservesWf(h: JsonHandle, ops: seq<JsonOp>)
    requires Wf(h)
    ensures Wf(Run(h, ops).handle)
    decreases |ops|
  {
    if |ops| > 0 {
      RunPreservesWf(Apply(h, ops[0]).handle, ops[1..]);
    }
  }

  /** Every handle reachable from the initial one satisfies the
      invariant. */
  lemma ReachableWf(ops: seq<JsonOp>)
    ensures Wf(Run(InitialHandle, ops).handle)
  {
    RunPreservesWf(InitialHandle, ops);
  }

  /** Running two sequences one after the other is running their
      concatenation. */
  lemma {:induction false} RunAppend(h: JsonHandle, a: seq<JsonOp>, b: seq<JsonOp>)
    ensures Run(h, a + b).codes == Run(h, a).codes + Run(Run(h, a).handle, b).codes
    ensures Run(h, a + b).handle == Run(Run(h, a).handle, b).handle
    decreases |a|
  {
    if |a| == 0 {
      assert a + b == b;
    } else {
      var s := Apply(h, a[0]);
      var rest := Run(s.handle, a[1..]);
      assert (a + b)[0] == a[0];
      assert (a + b)[1..] == a[1..] + b;
      RunAppend(s.handle, a[1..], b);
      var tail := Run(rest.handle, b);
      assert Run(h, a) == Trace([s.code] + rest.codes, rest.handle);
      assert Run(h, a + b) == Trace([s.code] + (rest.codes + tail.codes), tail.handle);
      assert [s.code] + (rest.codes + tail.codes) == [s.code] + rest.codes + tail.codes;
    }
  }

  /** The arguments of one call to `add_sensor_data`. */
  datatype AddArgs = AddArgs(sensorpiId: Option<string>, data: Option<SensorData>, confPath: Option<string>)

  /** Whether a call with these arguments adds a record once the array is
      open: it has data and a non-empty identifier. */
  predicate Acceptable(a: AddArgs) {
    var id := SensorPiId(a.sensorpiId, a.confPath);
    a.data.Some? && id.Some? && |id.value| > 0
  }

  function AddOps(adds: seq<AddArgs>): (ops: seq<JsonOp>)
    ensures |ops| == |adds|
    ensures forall i :: 0 <= i < |adds| ==>
              ops[i] == Add(adds[i].sensorpiId, adds[i].data, adds[i].confPath)
  {
    if |adds| == 0 then []
    else [Add(adds[0].sensorpiId, adds[0].data, adds[0].confPath)] + AddOps(adds[1..])
  }

  /** The record an acceptable call adds. */
  function RecordOf(a: AddArgs): JsonValue
    requires Acceptable(a)
  {
    SensorRecord(SensorPiId(a.sensorpiId, a.confPath).value, a.data.value)
  }

  /** `f` of each element of `xs` that satisfies `keep`, in order. */
  function FilterMap<A(!new), B>(xs: seq<A>, keep: A -> bool, f: A --> B): (ys: seq<B>)
    requires forall x :: keep(x) ==> f.requires(x)
    ensures |ys| <= |xs|
    ensures (forall i :: 0 <= i < |xs| ==> keep(xs[i])) ==>
              |ys| == |xs| && forall i :: 0 <= i < |xs| ==> ys[i] == f(xs[i])
    ensures (forall i :: 0 <= i < |xs| ==> !keep(xs[i])) ==> ys == []
  {
    if |xs| == 0 then []
    else if keep(xs[0]) then [f(xs[0])] + FilterMap(xs[1..], keep, f)
    else FilterMap(xs[1..], keep, f)
  }

  /** Every element of `FilterMap(xs, keep, f)` is `f` of a kept element
      of `xs`; `j` is that element's position. */
  lemma {:induction false} FilterMapSource<A(!new), B>(xs: seq<A>, keep: A -> bool, f: A --> B, k: int) returns (j: int)
    requires forall x :: keep(x) ==> f.requires(x)
    requires 0 <= k < |FilterMap(xs, keep, f)|
    ensures 0 <= j < |xs| && keep(xs[j])
    ensures FilterMap(xs, keep, f)[k] == f(xs[j])
    decreases |xs|
  {
    var rest := FilterMap(xs[1..], keep, f);
    if keep(xs[0]) && k == 0 {
      j := 0;
    } else {
      var k' := if keep(xs[0]) then k - 1 else k;
      assert FilterMap(xs, keep, f)[k] == rest[k'];
      var j' := FilterMapSource(xs[1..], keep, f, k');
      assert xs[1..][j'] == xs[j' + 1];
      j := j' + 1;
    }
  }

  /** The records of the acceptable calls among `adds`, in call order. */
  function AcceptedRecords(adds: seq<AddArgs>): (rs: seq<JsonValue>)
    ensures |rs| <= |adds|
    ensures (forall i :: 0 <= i < |adds| ==> Acceptable(adds[i])) ==>
              |rs| == |adds| && forall i :: 0 <= i < |adds| ==> rs[i] == RecordOf(adds[i])
    ensures (forall i :: 0 <= i < |adds| ==> !Acceptable(adds[i])) ==> rs == []
  {
    FilterMap(adds, Acceptable, RecordOf)
  }

  /** Whether each add's return code is `Ok` exactly when the add is
      acceptable. */
  predicate Verdicts(codes: seq<int>, adds: seq<AddArgs>) {
    |codes| == |adds| && forall i :: 0 <= i < |adds| ==> (codes[i] == Ok <==> Acceptable(adds[i]))
  }

  lemma VerdictsCons(c: int, codes: seq<int>, a: AddArgs, adds: seq<AddArgs>)
    requires Verdicts(codes, adds) && (c == Ok <==> Acceptable(a))
    ensures Verdicts([c] + codes, [a] + adds)
  {
    forall i | 0 <= i < |adds| + 1 ensures ([c] + codes)[i] == Ok <==> Acceptable(([a] + adds)[i]) {
      if i > 0 {
        ConsAt(c, codes, i);
        ConsAt(a, adds, i);
      }
    }
  }

  lemma ConsAt<T>(x: T, xs: seq<T>, i: int)
    requires 0 < i <= |xs|
    ensures ([x] + xs)[i] == xs[i - 1]
  {
  }

  /** Inside the open array, an acceptable call returns `Ok` and appends
      its record. */
  lemma AddStep(h: JsonHandle, a: AddArgs)
    requires InsideArray(h) && Acceptable(a)
    ensures Apply(h, Add(a.sensorpiId, a.data, a.confPath))
            == Step(Ok, h.(builder := Some(Builder(h.builder.value.records + [RecordOf(a)]))))
  {
    var r := AddSensorData(h, a.sensorpiId, a.data, a.confPath);
    Snoc(r.handle.builder.value.records, h.builder.value.records, RecordOf(a));
  }

  /** Inside the open array, a call that is not acceptable returns `Fail`
      and leaves the handle as it is. */
  lemma RejectStep(h: JsonHandle, a: AddArgs)
    requires InsideArray(h) && !Acceptable(a)
    ensures Apply(h, Add(a.sensorpiId, a.data, a.confPath)) == Step(Fail, h)
  {
  }

  /** A list one longer than `p`, starting with `p` and ending in `x`. */
  lemma Snoc<T>(r: seq<T>, p: seq<T>, x: T)
    requires |r| == |p| + 1 && r[..|p|] == p && r[|p|] == x
    ensures r == p + [x]
  {
    assert forall i :: 0 <= i < |r| ==> r[i] == (p + [x])[i] by {
      forall i | 0 <= i < |r| ensures r[i] == (p + [x])[i] {
        if i < |p| {
          assert r[i] == r[..|p|][i];
        }
      }
    }
  }

  /** Inside the open array, each add returns `Ok` exactly when it is
      acceptable, and the acceptable ones append their records in call
      order while the others change nothing. */
  lemma {:induction false} AddsAppend(h: JsonHandle, adds: seq<AddArgs>)
    requires InsideArray(h)
    ensures Verdicts(Run(h, AddOps(adds)).codes, adds)
    ensures Run(h, AddOps(adds)).handle
            == h.(builder := Some(Builder(h.builder.value.records + AcceptedRecords(adds))))
    decreases |adds|
  {
    var p := h.builder.value.records;
    if |adds| == 0 {
      assert p + [] == p;
    } else {
      var a := adds[0];
      var ops := AddOps(adds);
      var rest := AddOps(adds[1..]);
      assert ops[0] == Add(a.sensorpiId, a.data, a.confPath);
      assert ops[1..] == rest;
      assert adds == [a] + adds[1..];
      if Acceptable(a) {
        AddStep(h, a);
        var h1 := h.(builder := Some(Builder(p + [RecordOf(a)])));
        AddsAppend(h1, adds[1..]);
        var t := Run(h1, rest);
        assert Run(h, ops) == Trace([Ok] + t.codes, t.handle);
        VerdictsCons(Ok, t.codes, a, adds[1..]);
        Regroup(p, RecordOf(a), AcceptedRecords(adds[1..]));
        assert AcceptedRecords(adds) == [RecordOf(a)] + AcceptedRecords(adds[1..]);
      } else {
        RejectStep(h, a);
        AddsAppend(h, adds[1..]);
        var t := Run(h, rest);
        assert Run(h, ops) == Trace([Fail] + t.codes, t.handle);
        VerdictsCons(Fail, t.codes, a, adds[1..]);
        assert AcceptedRecords(adds) == AcceptedRecords(adds[1..]);
      }
    }
  }

  lemma Regroup<T>(p: seq<T>, x: T, rest: seq<T>)
    ensures p + [x] + rest == p + ([x] + rest)
  {
  }

  /** The calls of a complete session: init, begin, the adds, end. */
  function Session(adds: seq<AddArgs>): seq<JsonOp> {
    [Init(true), Begin] + AddOps(adds) + [End]
  }

  /** The codes and handle of init followed by begin, from any handle. */
  lemma OpenArray(h: JsonHandle)
    ensures Run(h, [Init(true), Begin]) == Trace([Ok, Ok], JsonHandle(Some(Builder([])), true, false))
  {
    var h1 := JsonInit(h, true).handle;
    assert [Init(true), Begin][1..] == [Begin];
    assert Run(h1, [Begin]) == Trace([Ok], h1.(isBegin := true));
  }

  /** A session runs as init and begin, then the adds on the freshly
      opened array, then end. */
  lemma SessionRuns(h: JsonHandle, adds: seq<AddArgs>)
    ensures var middle := Run(JsonHandle(Some(Builder([])), true, false), AddOps(adds));
            var t := Run(h, Session(adds));
            && t.codes == [Ok, Ok] + middle.codes + Run(middle.handle, [End]).codes
            && t.handle == Run(middle.handle, [End]).handle
  {
    var prefix := [Init(true), Begin];
    OpenArray(h);
    RunAppend(h, prefix, AddOps(adds));
    RunAppend(h, prefix + AddOps(adds), [End]);
  }

  /** A complete session returns `Ok` from init, begin and end, and from
      each add exactly when that add is acceptable. */
  lemma SessionCodes(h: JsonHandle, adds: seq<AddArgs>)
    ensures var c := Run(h, Session(adds)).codes;
            && |c| == |adds| + 3
            && c[0] == Ok && c[1] == Ok && c[|adds| + 2] == Ok
            && Verdicts(c[2..|adds| + 2], adds)
  {
    var open := JsonHandle(Some(Builder([])), true, false);
    SessionRuns(h, adds);
    AddsAppend(open, adds);
    var middle := Run(open, AddOps(adds));
    CloseArray(middle.handle);
    var c := Run(h, Session(adds)).codes;
    assert c == [Ok, Ok] + middle.codes + [Ok];
    assert c[2..|adds| + 2] == middle.codes;
  }

  /** A complete session in which every add is acceptable returns `Ok` from
      every call. */
  lemma SessionSucceeds(h: JsonHandle, adds: seq<AddArgs>)
    requires forall i :: 0 <= i < |adds| ==> Acceptable(adds[i])
    ensures AllOk(Run(h, Session(adds)).codes)
  {
    SessionCodes(h, adds);
    var c := Run(h, Session(adds)).codes;
    forall i | 0 <= i < |c| ensures c[i] == Ok {
      if 2 <= i < |adds| + 2 {
        assert c[i] == c[2..|adds| + 2][i - 2];
      }
    }
  }

  /** A complete session leaves a handle whose document lists exactly the
      records of the acceptable adds, in call order. */
  lemma SessionDocument(h: JsonHandle, adds: seq<AddArgs>)
    ensures GetJsonString(Run(h, Session(adds)).handle, true, true)
            == Some(Document(AcceptedRecords(adds)))
  {
    var open := JsonHandle(Some(Builder([])), true, false);
    var records := AcceptedRecords(adds);
    SessionRuns(h, adds);
    AddsAppend(open, adds);
    var middle := Run(open, AddOps(adds));
    assert [] + records == records;
    CloseArray(middle.handle);
  }

  /** `end` inside the open array returns `Ok` and closes it. */
  lemma CloseArray(h: JsonHandle)
    requires InsideArray(h)
    ensures Run(h, [End]) == Trace([Ok], h.(isEnd := true))
  {
    assert [End][1..] == [];
  }

  /** Every record in `AcceptedRecords(adds)` is the record of some
      acceptable add; `j` is that add's position. */
  lemma AcceptedSource(adds: seq<AddArgs>, k: int) returns (j: int)
    requires 0 <= k < |AcceptedRecords(adds)|
    ensures 0 <= j < |adds| && Acceptable(adds[j])
    ensures AcceptedRecords(adds)[k] == RecordOf(adds[j])
  {
    j := FilterMapSource(adds, Acceptable, RecordOf, k);
  }

  /** Every record of a session's document, rejected adds or not, is the
      record of some acceptable add and has the record layout for that
      call's id and data. */
  lemma SessionRecordsShaped(adds: seq<AddArgs>, k: int)
    ensures 0 <= k < |AcceptedRecords(adds)| ==>
            exists j :: 0 <= j < |adds| && Acceptable(adds[j])
                        && AcceptedRecords(adds)[k] == RecordOf(adds[j])
                        && AcceptedRecords(adds)[k].JObject?
                        && WellShaped(AcceptedRecords(adds)[k].members,
                                      SensorPiId(adds[j].sensorpiId, adds[j].confPath).value, adds[j].data.value)
  {
    if !(0 <= k < |AcceptedRecords(adds)|) {
      return;
    }
    var j := AcceptedSource(adds, k);
    var a := adds[j];
    var id := SensorPiId(a.sensorpiId, a.confPath).value;
    assert AcceptedRecords(adds)[k] == SensorRecord(id, a.data.value);
    RecordShape(id, a.data.value);
  }

  /** From the cleared handle, nothing but `init` revives the builder:
      every other call except `fini` fails and the handle stays cleared. */
  lemma {:induction false} ClearedStaysCleared(ops: seq<JsonOp>)
    requires forall i :: 0 <= i < |ops| ==> !ops[i].Init?
    ensures var t := Run(InitialHandle, ops);
            && t.handle == InitialHandle
            && (forall i :: 0 <= i < |ops| ==> (t.codes[i] == Ok <==> ops[i].Fini?))
    decreases |ops|
  {
    if |ops| > 0 {
      ClearedStaysCleared(ops[1..]);
      var t := Run(InitialHandle, ops);
      forall i | 0 <= i < |ops| ensures t.codes[i] == Ok <==> ops[i].Fini? {
        if i > 0 {
          assert t.codes[i] == Run(InitialHandle, ops[1..]).codes[i - 1];
          assert ops[i] == ops[1..][i - 1];
        }
      }
    }
  }

  /** After `fini` from any handle, nothing but `init` revives the
      builder: every other call except `fini` fails, the handle stays
      cleared, and there is no document to read. */
  lemma FiniIsFinal(h: JsonHandle, ops: seq<JsonOp>, rootObtained: bool, generatorCreated: bool)
    requires forall i :: 0 <= i < |ops| ==> !ops[i].Init?
    ensures var t := Run(JsonFini(h).handle, ops);
            && t.handle == InitialHandle
            && (forall i :: 0 <= i < |ops| ==> (t.codes[i] == Ok <==> ops[i].Fini?))
            && GetJsonString(t.handle, rootObtained, generatorCreated).None?
  {
    ClearedStaysCleared(ops);
  }

  /** The configuration file is never consulted when the caller passes an
      identifier, and an empty one makes the add fail even when the
      configuration holds a usable identifier. */
  lemma CallerIdWins(h: JsonHandle, id: string, data: Option<SensorData>, conf1: Option<string>, conf2: Option<string>)
    ensures AddSensorData(h, Some(id), data, conf1) == AddSensorData(h, Some(id), data, conf2)
    ensures |id| == 0 ==> AddSensorData(h, Some(id), data, conf1) == Step(Fail, h)
  {
  }

  /** After `end`, the document is fixed: calls other than `init` and
      `fini` fail and change nothing. */
  lemma {:induction false} EndIsFinal(h: JsonHandle, ops: seq<JsonOp>)
    requires Finished(h)
    requires forall i :: 0 <= i < |ops| ==> !ops[i].Init? && !ops[i].Fini?
    ensures var t := Run(h, ops);
            && t.handle == h
            && (forall i :: 0 <= i < |ops| ==> t.codes[i] == Fail)
    decreases |ops|
  {
    if |ops| > 0 {
      EndIsFinal(h, ops[1..]);
      var t := Run(h, ops);
      forall i | 0 <= i < |ops| ensures t.codes[i] == Fail {
        if i > 0 {
          assert t.codes[i] == Run(h, ops[1..]).codes[i - 1];
        }
      }
    }
  }
}

=== FILE: wrappers.dfy ===
/** The optional value shared by all modules: it stands for a C pointer
    that may be NULL and for an iotcon getter that may report an error. */
module Wrappers {

  /** `None` is the NULL pointer, or the getter's failure. */
  datatype Option<+T> = None | Some(value: T)
}
